=== FILE: README.md ===
# qutebrowser configuration files, modelled in Dafny

This project models `qutebrowser/config/configfiles.py`, which handles the
configuration files qutebrowser keeps on disk:

- the **state file** (`StateConfig`): schema-free sections of application
  bookkeeping. Loading it makes sure the sections `general` and `geometry`
  exist, and purges the deprecated keys `fooled` and `backend-warning-shown`
  from `general`. Each purge reads the value first, through configparser's
  `%` interpolation, and that read can raise;
- **`autoconfig.yml`** (`YamlConfig`): option values saved by qutebrowser
  itself, kept as a dictionary with a dirty flag. Saving writes
  `{config_version: 1, global: values}` below a fixed warning header, and
  only when the store is dirty. Loading checks the document's shape and
  drops options that are no longer known;
- **`config.py`** (`ConfigAPI` and `read_config_py`): a user script run
  against the `config` API object. Each API call isolates configuration
  errors into a list of error descriptors. Read and compile failures raise
  one aggregate error. An exception escaping the script is recorded as
  "Unhandled exception". Afterwards the import path is restored and the
  configuration is finalized.

File contents, YAML parsing and Python execution are abstract inputs:

- `StateConfig.StateFile` is what the configparser read yields;
- `YamlConfig.Source` is what opening and parsing `autoconfig.yml` yields, and
  `YamlConfig.Yaml` is the parsed value;
- `ConfigPy.ScriptFile` is what reading and compiling `config.py` yields. A
  compiled script is a sequence of `ConfigPy.Stmt` statements: API calls,
  changes of `load_autoconfig` or `sys.path`, and raises.

The configuration and key-binding objects behind the API are opaque. They
are given as `ConfigApi.Backend`, a record of functions whose `Outcome` is
success, a `configexc.Error` (which the API catches), or any other
exception (which escapes the API call). The option registry
`configdata.DATA` is a `set<string>` parameter. `sys.path` is a sequence of
strings.

Modules: `Wrappers` (Option, Result), `ConfigExc` (error descriptors),
`PosixPath` (`os.path.join`, `os.path.basename`), `Interpolation`
(configparser's `%` interpolation of values read through a section), `StateConfig`,
`YamlConfig`, `ConfigApi`, `ConfigPy`.

Behaviour the code has that a reader might not expect, and which the
model follows:

- `sys.path` is restored only after the script was executed. The read and
  compile error paths raise first, so the configuration directory stays on
  the path. `ConfigPy.FileErrorsLeavePathChanged` states this.
- The directory put on `sys.path` is the configuration directory, not the
  script's own directory, and it is added only when it is not already
  there.
- A missing `autoconfig.yml` leaves the values and the dirty flag as they
  were. A fresh store's flag is `None`, which is falsy.
- A state file that is missing or unreadable is treated as empty, because
  configparser's `read` skips files it cannot open. A file configparser
  cannot parse raises out of the load.
- Deleting a deprecated key is `pop(key, None)` on the section. That reads
  the value before deleting it, and the read interpolates. A deprecated key
  whose value is, say, `50%` or `%(x)s` with no `x` in the section makes
  the load raise. `StateConfig.ReconcilePercentFails` and
  `StateConfig.ReconcileSelfReferenceFails` exhibit this.
- A top level that is not a mapping is reported as "Toplevel object is not
  a dict", whatever its type. The check for the missing `global` key comes
  after it.
- A `SystemExit` (a `BaseException` that is not an `Exception`) raised by
  the script is not caught by the handler around `exec`. It propagates out
  of `read_config_py` without restoring `sys.path` and without finalizing.
  The changes the earlier statements made to the configuration stay.

## Model

| member | source | states |
|---|---|---|
| StateConfig.AddSection | qutebrowser/config/configfiles.py:50-54 | a required section is created empty when missing; an existing section, with its contents, is kept as it was (the duplicate-section error is swallowed) |
| StateConfig.AddSections | qutebrowser/config/configfiles.py:50-54 | after adding a list of sections, all of them exist, every earlier section is unchanged, and every new one is empty |
| Interpolation.CloseParen | qutebrowser/config/configfiles.py:58 | the first `)` at or after a position, as the reference pattern `%(name)s` needs it |
| Interpolation.Reference | qutebrowser/config/configfiles.py:58 | a reference `%(name)s` at the start of the text is matched with a non-empty name free of `)` |
| Interpolation.Interpolate | qutebrowser/config/configfiles.py:58 | reading a value through the section interpolates it: text without `%` reads as itself, and a read nested past depth 10 fails |
| Interpolation.Read | qutebrowser/config/configfiles.py:58 | a value without `%` reads back unchanged |
| Interpolation.TrailingPercentFails | qutebrowser/config/configfiles.py:58 | a value ending in a lone `%` cannot be read, at any nesting level: a syntax error |
| Interpolation.ReferenceMatches | qutebrowser/config/configfiles.py:58 | a well-formed reference `%(name)s` is matched with exactly its name, and the text after it follows |
| Interpolation.ReferenceUnfolds | qutebrowser/config/configfiles.py:58 | a reference to a present value without `%` reads as that value, followed by the interpolation of the text after it at the same level |
| Interpolation.ReferenceExpands | qutebrowser/config/configfiles.py:58 | `%(name)s` followed by plain text reads as the value of `name` followed by that text |
| Interpolation.ReferenceThenPercentFails | qutebrowser/config/configfiles.py:58 | a lone `%` after a reference that reads fine is still a syntax error |
| Interpolation.NestedPercentFails | qutebrowser/config/configfiles.py:58 | the referenced value is interpolated too: a reference to a value ending in a lone `%` fails |
| Interpolation.SelfReferenceFails | qutebrowser/config/configfiles.py:58 | an option whose value refers to itself cannot be read at any level: the depth error |
| Interpolation.MissingReferenceFails | qutebrowser/config/configfiles.py:58 | a value referring to an option the section lacks cannot be read |
| Interpolation.EscapedPercent | qutebrowser/config/configfiles.py:58 | `%%` reads as a single `%` |
| StateConfig.Pop | qutebrowser/config/configfiles.py:58 | `pop(key, None)` removes exactly that key; an absent key is no error; a present key fails exactly when reading its value fails |
| StateConfig.PopKeys | qutebrowser/config/configfiles.py:56-58 | popping the deny-listed keys removes exactly those keys and keeps the other values; it cannot fail when their values hold no `%`, and fails only because of such a value |
| StateConfig.Reconcile | qutebrowser/config/configfiles.py:46-58 | after init, `general` and `geometry` exist, `general` holds no deleted key and keeps every other key with its value, and every other section is unchanged; it fails only on a deleted key holding `%` |
| StateConfig.ReconcileEmpty | qutebrowser/config/configfiles.py:49-54 | with nothing parsed, the state is exactly two empty sections, `general` and `geometry` |
| StateConfig.ReconcilePercentFails | qutebrowser/config/configfiles.py:56-58 | a `general` section holding `fooled = 50%` makes the init raise |
| StateConfig.ReconcileSelfReferenceFails | qutebrowser/config/configfiles.py:56-58 | a `general` section holding `fooled = %(fooled)s` makes the init raise |
| StateConfig.Load | qutebrowser/config/configfiles.py:46-58 | a parse failure makes the load fail, and so can a deleted key that does not interpolate; a missing or unreadable file gives two empty required sections; a parsed file is reconciled |
| StateConfig.Init | qutebrowser/config/configfiles.py:273-277 | `init()` fails exactly when the load does; otherwise it adds the running version to `general` and changes nothing else |
| StateConfig.ReconcileGeneral | qutebrowser/config/configfiles.py:56-58 | after a successful init, `general` is the parsed section minus the two deleted keys |
| StateConfig.ReconcileIsReference | qutebrowser/config/configfiles.py:46-58 | a successful reconciliation equals a one-step reference: the union of the parsed and required sections, with the deleted keys removed from `general` |
| StateConfig.ReconcileIdempotent | qutebrowser/config/configfiles.py:46-58 | reconciling a reconciled state succeeds and changes nothing |
| YamlConfig.New | qutebrowser/config/configfiles.py:84-88 | a fresh store has no values and a dirty flag that is not true |
| YamlConfig.Get | qutebrowser/config/configfiles.py:98-99 | `store[name]` yields a value exactly when the name is present (a missing name raises `KeyError`) |
| YamlConfig.Contains | qutebrowser/config/configfiles.py:105-106 | `name in store` holds exactly when `store[name]` yields a value |
| YamlConfig.Set | qutebrowser/config/configfiles.py:101-103 | `store[name] = v` marks the store dirty, makes `store[name]` yield `v`, and leaves every other entry unchanged |
| YamlConfig.Items | qutebrowser/config/configfiles.py:108-109 | iteration yields exactly the pairs `(name, v)` for which `store[name]` is `v` |
| YamlConfig.ToMapping | qutebrowser/config/configfiles.py:116 | the values are written under `global` as a mapping with string keys and the same values |
| YamlConfig.Save | qutebrowser/config/configfiles.py:111-123 | a save writes something exactly when the store is dirty; the output is the warning header and a mapping with exactly the keys `config_version` (= 1) and `global` (= the values) |
| YamlConfig.Prune | qutebrowser/config/configfiles.py:157-161 | pruning keeps exactly the names of `global` that are known options, with their values |
| YamlConfig.LoadParsed | qutebrowser/config/configfiles.py:139-164 | a rejected document raises one descriptor keyed `autoconfig.yml` and leaves the store unchanged; an accepted one leaves a clean store holding only known options |
| YamlConfig.Load | qutebrowser/config/configfiles.py:125-164 | a missing file leaves the store untouched and raises nothing; every error is one descriptor keyed `autoconfig.yml` that leaves values and flag unchanged: "While reading" or "While parsing" with the exception's message for a read or parse failure, "While loading data" for a bad shape; a success leaves a clean store of known options |
| YamlConfig.LoadShapeErrors | qutebrowser/config/configfiles.py:139-155 | a parsed document is rejected exactly when it is not a mapping, lacks `global`, or has a non-mapping `global`, each with its own message |
| YamlConfig.LoadKeepsKnown | qutebrowser/config/configfiles.py:157-164 | after a successful load every known option of `global` is present with its value unchanged; no unknown option and no name missing from `global` is present (the values are replaced outright); the store is clean |
| YamlConfig.SaveAfterLoadWritesNothing | qutebrowser/config/configfiles.py:111-164 | a save right after a successful load writes nothing |
| YamlConfig.SaveFreshWritesNothing | qutebrowser/config/configfiles.py:84-114 | a save on a fresh store (flag `None`) writes nothing |
| YamlConfig.LoadDocument | qutebrowser/config/configfiles.py:116-164 | every document a save writes has the shape a load accepts |
| YamlConfig.PruneToMapping | qutebrowser/config/configfiles.py:157-161 | pruning a written mapping whose names are all known removes nothing |
| YamlConfig.SaveLoadRoundTrip | qutebrowser/config/configfiles.py:111-164 | loading what a dirty store saved restores its values exactly, if they are all known options, and leaves the store clean |
| YamlConfig.UnknownNeverSaved | qutebrowser/config/configfiles.py:157-163 | an option that is not known is absent after a successful load, so a later save cannot write it back |
| ConfigApi.New | qutebrowser/config/configfiles.py:182-186 | a new API wraps the given objects, with `load_autoconfig` true and no errors |
| ConfigApi.HandleError | qutebrowser/config/configfiles.py:188-194 | a configuration error appends exactly one descriptor "While <action> '<name>'"; success appends nothing; any other exception escapes with the API unchanged |
| ConfigApi.Finalize | qutebrowser/config/configfiles.py:196-198 | finalizing applies `update_mutables` to the configuration and changes nothing else |
| ConfigApi.Get | qutebrowser/config/configfiles.py:200-202 | `get` returns the value on success; on a configuration error it yields nothing, records "While getting '<name>'" and changes nothing else; any other exception escapes with the API unchanged |
| ConfigApi.Set | qutebrowser/config/configfiles.py:204-206 | `set` changes the configuration only on success; on a configuration error it records "While setting '<name>'" and the configuration is unchanged |
| ConfigApi.Bind | qutebrowser/config/configfiles.py:208-210 | `bind` changes the key configuration only on success; on a configuration error it records "While binding '<key>'" |
| ConfigApi.Unbind | qutebrowser/config/configfiles.py:212-214 | `unbind` changes the key configuration only on success; on a configuration error it records "While unbinding '<key>'" |
| ConfigPy.Step | qutebrowser/config/configfiles.py:200-214 | an API statement performs its call: success applies the result and goes on, a configuration error records exactly its descriptor and goes on, any other exception ends the script with the state unchanged; a raise ends it too, and an exit ends it keeping the configuration and path it reached |
| ConfigPy.RecordedErrorContinues | qutebrowser/config/configfiles.py:188-214 | a call that raised a configuration error records its one descriptor, and the rest of the script then runs exactly as it would from there |
| ConfigPy.Run | qutebrowser/config/configfiles.py:259-264 | running a script only appends errors, at most one per statement; a script that ran to its end contained no raise; an exit comes from an exit statement |
| ConfigPy.RunAppend | qutebrowser/config/configfiles.py:259-264 | running two pieces of script in sequence equals running their concatenation, unless the first piece ended with an exception |
| ConfigPy.RaiseStopsScript | qutebrowser/config/configfiles.py:259-264 | an exception ends the script with the effects of every earlier statement kept, and no later statement runs |
| ConfigPy.WithConfigDir | qutebrowser/config/configfiles.py:228-230 | the configuration directory ends up on the path, in front, and only when it was not already there |
| ConfigPy.FileError | qutebrowser/config/configfiles.py:240-257 | the descriptor for a read, compile or syntax failure, with the traceback only for a syntax error |
| ConfigPy.AfterExec | qutebrowser/config/configfiles.py:259-269 | an escaped exception adds exactly one "Unhandled exception" descriptor; then `sys.path` is restored and finalize runs; an exit does neither, and keeps the configuration state its statements reached; the returned API keeps the `load_autoconfig` value the script left |
| ConfigPy.ReadConfigPy | qutebrowser/config/configfiles.py:217-270 | a missing default file returns a fresh API with the path untouched; a read or compile failure raises one descriptor keyed by the base name without executing; otherwise the script runs and its result is finished |
| ConfigPy.DefaultScriptBasename | qutebrowser/config/configfiles.py:221-233 | without a file name, the errors are keyed by `config.py` |
| ConfigPy.FileErrorsLeavePathChanged | qutebrowser/config/configfiles.py:240-257 | after a read or compile failure, `sys.path` is not restored: it still has the configuration directory in front |
| ConfigPy.UnhandledExceptionRecorded | qutebrowser/config/configfiles.py:259-269 | a script raising after some statements keeps their effects, gains exactly one "Unhandled exception" descriptor after their errors, gets `sys.path` back, keeps the `load_autoconfig` value reached before the raise, and is finalized |
| ConfigPy.ScriptAlwaysReturns | qutebrowser/config/configfiles.py:259-270 | unless the script exits, an API is returned, finalized, with `sys.path` restored, the `load_autoconfig` value the script left, and at most one error per statement plus one |
| ConfigPy.DisabledAutoconfigReturned | qutebrowser/config/configfiles.py:259-270 | a script ending in `config.load_autoconfig = False` returns an API with `load_autoconfig` false |
| PosixPath.Join | qutebrowser/config/configfiles.py:222 | an absolute name replaces the directory; a relative name is appended to the directory with exactly one separator between them, none when the directory is empty or already ends in one |
| PosixPath.Basename | qutebrowser/config/configfiles.py:233 | the base name is the part of the path after its last separator |
| PosixPath.BasenameAfterSeparator | qutebrowser/config/configfiles.py:233 | a name without separators, placed after a directory boundary, is its own base name |
| PosixPath.BasenameOfJoin | qutebrowser/config/configfiles.py:221-233 | the base name of a file name without separators, joined to any directory, is that file name |

## Left out

- File I/O, the configparser text format, YAML parsing and dumping, and the atomic write of `qtutils.savefile_open`. These are library calls; the model takes their results as inputs and returns the document to write.
- `StateConfig._save`: it writes the sections as text and is not modelled. The order of sections is not kept either: sections are a `map`.
- `init_save_manager` of both stores, and the `QSettings.setPath` calls in `init()`. They register callbacks or configure Qt.
- configparser's `DEFAULT` section, and its lower-casing of option names. The parsed sections are taken as given.
- Python's `compile` and `exec`, `types.ModuleType`, the shorthand container `c` (`config.ConfigContainer`), and `traceback.format_exc`. A compiled script is a statement sequence, and tracebacks are strings carried by the outcomes.
- The semantics of `config.instance`, `get_obj`, `set_obj`, `update_mutables`, and `keyconfig.bind`/`unbind`, including the `force` conflict rule. They live in `config.py` and `keyconfig.py`, which this model does not cover. Their operations are opaque functions that may fail. A failed operation leaves its object unchanged, and `update_mutables` never raises.
- The Python defaults `mode='normal'` and `force=False` of `bind` and `unbind`: every call passes them explicitly.
- The value that `load` returns (`{}` for a missing file) is dropped, since callers ignore it. The `config_version` of a loaded document is not checked, because the source does not check it.
- YAML floats, timestamps and other scalar types are not represented. Python's cross-type key equality (`True == 1`) is not modelled either.
- PosixPath.Basename: paths follow POSIX rules only. On Windows `os.path.basename` also splits at `\` and after a drive letter, so the key of a `ConfigFileErrors` there can be shorter than the model's.
- PosixPath.Join: POSIX rules only; Windows drive letters and `\` separators are not modelled.
- Interpolation.Interpolate: a `%(name)s` reference is looked up as written. configparser lower-cases the name first and also consults the `DEFAULT` section, which this model does not have.
- StateConfig.Init: storing `version` through the section is taken to succeed. configparser rejects a value holding a stray `%`, which the program's version string never does.

=== FILE: config_api.dfy ===
/** `ConfigAPI`: the `config` object a `config.py` script receives. Every call
    runs an operation of the configuration or key-binding objects; a
    `configexc.Error` from it is recorded and swallowed, any other exception
    escapes to the caller. */
module ConfigApi {
  import opened Wrappers
  import opened ConfigExc

  /** How an operation of the configuration or key-binding objects ended. */
  datatype Outcome<T> =
    | Ok(value: T)
    | ConfigError(message: string)
    | OtherError(message: string, traceback: string)

  /** The operations the API delegates to; their semantics are not part of this model. */
  datatype Backend<!C, !K, !V> = Backend(
    getObj: (C, string) -> Outcome<V>,
    setObj: (C, string, V) -> Outcome<C>,
    bind: (K, string, string, string, bool) -> Outcome<K>,
    unbind: (K, string, string) -> Outcome<K>,
    updateMutables: C -> C)

  /** The API object: the configuration, the key configuration, the
      `load_autoconfig` attribute and the errors recorded so far. */
  datatype Api<C, K> = Api(conf: C, keys: K, loadAutoconfig: bool, errors: seq<ErrorDesc>)

  /** How one API call ended: it returned, or a non-configuration exception escaped. */
  datatype Call<C, K, T> =
    | Returned(api: Api<C, K>, value: Option<T>)
    | Escaped(api: Api<C, K>, message: string, traceback: string)

  function New<C, K>(conf: C, keys: K): (r: Api<C, K>)
    ensures r.conf == conf && r.keys == keys
    ensures r.loadAutoconfig
    ensures r.errors == []
  {
    Api(conf, keys, true, [])
  }

  /** The description recorded for a failed call. */
  function ErrorText(action: string, name: string): string {
    "While " + action + " '" + name + "'"
  }

  /** `_handle_error`: records exactly one descriptor when the operation
      raised a configuration error, nothing when it succeeded, and lets any
      other exception through with the API as it was. */
  function HandleError<C, K, T>(api: Api<C, K>, action: string, name: string, o: Outcome<T>): (r: Call<C, K, T>)
    ensures r.api.conf == api.conf && r.api.keys == api.keys
    ensures r.api.loadAutoconfig == api.loadAutoconfig
    ensures r.Escaped? <==> o.OtherError?
    ensures r.Returned? ==> (r.value.Some? <==> o.Ok?)
    ensures o.Ok? ==> r.value == Some(o.value)
    ensures !o.ConfigError? ==> r.api.errors == api.errors
    ensures o.ConfigError? ==>
      && |r.api.errors| == |api.errors| + 1
      && r.api.errors[..|api.errors|] == api.errors
      && r.api.errors[|api.errors|] == ErrorDesc(ErrorText(action, name), o.message, None)
  {
    match o
    case Ok(v) => Returned(api, Some(v))
    case ConfigError(e) =>
      Returned(api.(errors := api.errors + [ErrorDesc(ErrorText(action, name), e, None)]), None)
    case OtherError(e, tb) => Escaped(api, e, tb)
  }

  /** `finalize`: lets the configuration recompute its mutable values. */
  function Finalize<C, K, V>(b: Backend<C, K, V>, api: Api<C, K>): (r: Api<C, K>)
    ensures r.conf == b.updateMutables(api.conf)
    ensures r.keys == api.keys && r.errors == api.errors && r.loadAutoconfig == api.loadAutoconfig
  {
    api.(conf := b.updateMutables(api.conf))
  }

  /** `get(name)`: the option's value, or nothing after a recorded error. */
  function Get<C, K, V>(b: Backend<C, K, V>, api: Api<C, K>, name: string): (r: Call<C, K, V>)
    ensures r.api.conf == api.conf && r.api.keys == api.keys
    ensures b.getObj(api.conf, name).Ok? ==>
      r == Returned(api, Some(b.getObj(api.conf, name).value))
    ensures b.getObj(api.conf, name).ConfigError? ==>
      r.Returned? && r.value == None && r.api.loadAutoconfig == api.loadAutoconfig
      && r.api.errors == api.errors + [ErrorDesc(ErrorText("getting", name), b.getObj(api.conf, name).message, None)]
    ensures r.Escaped? <==> b.getObj(api.conf, name).OtherError?
    ensures r.Escaped? ==> r.api == api
  {
    HandleError(api, "getting", name, b.getObj(api.conf, name))
  }

  /** Applies a successful update of the configuration or key objects; like
      the Python method, the call itself returns `None`. */
  function Apply<C, K, T>(c: Call<C, K, T>, update: (Api<C, K>, T) -> Api<C, K>): Call<C, K, ()> {
    match c
    case Returned(a, Some(v)) => Returned(update(a, v), None)
    case Returned(a, None) => Returned(a, None)
    case Escaped(a, e, tb) => Escaped(a, e, tb)
  }

  /** `set(name, value)`: the configuration changes only if the operation succeeded. */
  function Set<C, K, V>(b: Backend<C, K, V>, api: Api<C, K>, name: string, value: V): (r: Call<C, K, ()>)
    ensures r.api.keys == api.keys && r.api.loadAutoconfig == api.loadAutoconfig
    ensures b.setObj(api.conf, name, value).Ok? ==>
      r.Returned? && r.api.conf == b.setObj(api.conf, name, value).value && r.api.errors == api.errors
    ensures b.setObj(api.conf, name, value).ConfigError? ==>
      r.Returned? && r.api.conf == api.conf
      && r.api.errors == api.errors + [ErrorDesc(ErrorText("setting", name), b.setObj(api.conf, name, value).message, None)]
    ensures r.Escaped? <==> b.setObj(api.conf, name, value).OtherError?
    ensures r.Escaped? ==> r.api == api
    ensures r.Returned? ==> r.value == None
  {
    Apply(HandleError(api, "setting", name, b.setObj(api.conf, name, value)),
          (a: Api<C, K>, c: C) => a.(conf := c))
  }

  /** `bind(key, command, mode, force)`: the key configuration changes only if the operation succeeded. */
  function Bind<C, K, V>(b: Backend<C, K, V>, api: Api<C, K>, key: string, command: string, mode: string, force: bool)
    : (r: Call<C, K, ()>)
    ensures r.api.conf == api.conf && r.api.loadAutoconfig == api.loadAutoconfig
    ensures b.bind(api.keys, key, command, mode, force).Ok? ==>
      r.Returned? && r.api.keys == b.bind(api.keys, key, command, mode, force).value && r.api.errors == api.errors
    ensures b.bind(api.keys, key, command, mode, force).ConfigError? ==>
      r.Returned? && r.api.keys == api.keys
      && r.api.errors == api.errors + [ErrorDesc(ErrorText("binding", key), b.bind(api.keys, key, command, mode, force).message, None)]
    ensures r.Escaped? <==> b.bind(api.keys, key, command, mode, force).OtherError?
    ensures r.Escaped? ==> r.api == api
    ensures r.Returned? ==> r.value == None
  {
    Apply(HandleError(api, "binding", key, b.bind(api.keys, key, command, mode, force)),
          (a: Api<C, K>, k: K) => a.(keys := k))
  }

  /** `unbind(key, mode)`: the key configuration changes only if the operation succeeded. */
  function Unbind<C, K, V>(b: Backend<C, K, V>, api: Api<C, K>, key: string, mode: string): (r: Call<C, K, ()>)
    ensures r.api.conf == api.conf && r.api.loadAutoconfig == api.loadAutoconfig
    ensures b.unbind(api.keys, key, mode).Ok? ==>
      r.Returned? && r.api.keys == b.unbind(api.keys, key, mode).value && r.api.errors == api.errors
    ensures b.unbind(api.keys, key, mode).ConfigError? ==>
      r.Returned? && r.api.keys == api.keys
      && r.api.errors == api.errors + [ErrorDesc(ErrorText("unbinding", key), b.unbind(api.keys, key, mode).message, None)]
    ensures r.Escaped? <==> b.unbind(api.keys, key, mode).OtherError?
    ensures r.Escaped? ==> r.api == api
    ensures r.Returned? ==> r.value == None
  {
    Apply(HandleError(api, "unbinding", key, b.unbind(api.keys, key, mode)),
          (a: Api<C, K>, k: K) => a.(keys := k))
  }
}

=== FILE: config_exc.dfy ===
/** The error values of `configexc` that the configuration files raise and collect. */
module ConfigExc {
  import opened Wrappers

  /** `ConfigErrorDesc`: what was being done, the text of the exception and,
      for syntax errors and unhandled exceptions, a formatted traceback. */
  datatype ErrorDesc = ErrorDesc(text: string, exception: string, traceback: Option<string>)

  /** `ConfigFileErrors`: the aggregate raised for one file, keyed by its base name. */
  datatype ConfigFileErrors = ConfigFileErrors(basename: string, errors: seq<ErrorDesc>)
}

=== FILE: config_py.dfy ===
/** `read_config_py`: running a user's `config.py` against a fresh `ConfigAPI`.
    The script is a sequence of statements; each statement is a call on the
    API, a change of `load_autoconfig` or of the import path, or a raise. */
module ConfigPy {
  import opened Wrappers
  import opened ConfigExc
  import opened ConfigApi
  import PosixPath

  /** One statement of a configuration script. */
  datatype Stmt<V> =
    | GetOption(name: string)
    | SetOption(name: string, value: V)
    | BindKey(key: string, command: string, mode: string, force: bool)
    | UnbindKey(key: string, mode: string)
    | SetLoadAutoconfig(enabled: bool)
    | AppendPath(dir: string)
      /** An exception derived from `Exception` that the script lets escape. */
    | Raise(message: string, traceback: string)
      /** A `BaseException` that is not an `Exception`, e.g. `SystemExit`. */
    | Exit(message: string)

  /** How executing the script ended, with the API and import path at that point. */
  datatype Exec<C, K> =
    | Finished(api: Api<C, K>, path: seq<string>)
    | Failed(api: Api<C, K>, path: seq<string>, message: string, traceback: string)
    | Exited(api: Api<C, K>, path: seq<string>, message: string)

  /** Turns the result of an API call into the continuation of the script. */
  function AfterCall<C, K, T>(c: Call<C, K, T>, path: seq<string>): Exec<C, K> {
    match c
    case Returned(a, _) => Finished(a, path)
    case Escaped(a, e, tb) => Failed(a, path, e, tb)
  }

  /** The descriptor an API statement records when its operation raised a
      configuration error; nothing for any other statement or outcome. */
  function Recorded<C, K, V>(b: Backend<C, K, V>, api: Api<C, K>, st: Stmt<V>): Option<ErrorDesc> {
    match st
    case GetOption(name) =>
      var o := b.getObj(api.conf, name);
      if o.ConfigError? then Some(ErrorDesc(ErrorText("getting", name), o.message, None)) else None
    case SetOption(name, value) =>
      var o := b.setObj(api.conf, name, value);
      if o.ConfigError? then Some(ErrorDesc(ErrorText("setting", name), o.message, None)) else None
    case BindKey(key, command, mode, force) =>
      var o := b.bind(api.keys, key, command, mode, force);
      if o.ConfigError? then Some(ErrorDesc(ErrorText("binding", key), o.message, None)) else None
    case UnbindKey(key, mode) =>
      var o := b.unbind(api.keys, key, mode);
      if o.ConfigError? then Some(ErrorDesc(ErrorText("unbinding", key), o.message, None)) else None
    case _ => None
  }

  /** Executes one statement. An API statement performs its call: success
      applies the operation's result, a configuration error is recorded and
      the script goes on, any other exception ends the script. */
  function Step<C, K, V>(b: Backend<C, K, V>, api: Api<C, K>, path: seq<string>, st: Stmt<V>): (r: Exec<C, K>)
    ensures api.errors <= r.api.errors && |r.api.errors| <= |api.errors| + 1
    ensures r.Finished? ==> !st.Raise? && !st.Exit?
    ensures r.Exited? <==> st.Exit?
    ensures st.Raise? ==> r == Failed(api, path, st.message, st.traceback)
    ensures st.Exit? ==> r == Exited(api, path, st.message)
    ensures Recorded(b, api, st).Some? ==>
      r == Finished(api.(errors := api.errors + [Recorded(b, api, st).value]), path)
    ensures st.GetOption? && b.getObj(api.conf, st.name).Ok? ==> r == Finished(api, path)
    ensures st.SetOption? && b.setObj(api.conf, st.name, st.value).Ok? ==>
      r == Finished(api.(conf := b.setObj(api.conf, st.name, st.value).value), path)
    ensures st.BindKey? && b.bind(api.keys, st.key, st.command, st.mode, st.force).Ok? ==>
      r == Finished(api.(keys := b.bind(api.keys, st.key, st.command, st.mode, st.force).value), path)
    ensures st.UnbindKey? && b.unbind(api.keys, st.key, st.mode).Ok? ==>
      r == Finished(api.(keys := b.unbind(api.keys, st.key, st.mode).value), path)
    ensures st.GetOption? && b.getObj(api.conf, st.name).OtherError? ==>
      r == Failed(api, path, b.getObj(api.conf, st.name).message, b.getObj(api.conf, st.name).traceback)
    ensures st.SetOption? && b.setObj(api.conf, st.name, st.value).OtherError? ==>
      r == Failed(api, path, b.setObj(api.conf, st.name, st.value).message,
                  b.setObj(api.conf, st.name, st.value).traceback)
    ensures st.BindKey? && b.bind(api.keys, st.key, st.command, st.mode, st.force).OtherError? ==>
      r == Failed(api, path, b.bind(api.keys, st.key, st.command, st.mode, st.force).message,
                  b.bind(api.keys, st.key, st.command, st.mode, st.force).traceback)
    ensures st.UnbindKey? && b.unbind(api.keys, st.key, st.mode).OtherError? ==>
      r == Failed(api, path, b.unbind(api.keys, st.key, st.mode).message, b.unbind(api.keys, st.key, st.mode).traceback)
    ensures st.SetLoadAutoconfig? ==> r == Finished(api.(loadAutoconfig := st.enabled), path)
    ensures st.AppendPath? ==> r == Finished(api, path + [st.dir])
  {
    match st
    case GetOption(name) => AfterCall(ConfigApi.Get(b, api, name), path)
    case SetOption(name, value) => AfterCall(ConfigApi.Set(b, api, name, value), path)
    case BindKey(key, command, mode, force) => AfterCall(ConfigApi.Bind(b, api, key, command, mode, force), path)
    case UnbindKey(key, mode) => AfterCall(ConfigApi.Unbind(b, api, key, mode), path)
    case SetLoadAutoconfig(enabled) => Finished(api.(loadAutoconfig := enabled), path)
    case AppendPath(dir) => Finished(api, path + [dir])
    case Raise(e, tb) => Failed(api, path, e, tb)
    case Exit(e) => Exited(api, path, e)
  }

  /** Executes the statements in order until one raises. */
  function Run<C, K, V>(b: Backend<C, K, V>, api: Api<C, K>, path: seq<string>, body: seq<Stmt<V>>): (r: Exec<C, K>)
    ensures api.errors <= r.api.errors
    ensures |r.api.errors| <= |api.errors| + |body|
    ensures r.Finished? ==> forall i :: 0 <= i < |body| ==> !body[i].Raise? && !body[i].Exit?
    ensures r.Exited? ==> exists i :: 0 <= i < |body| && body[i].Exit?
    decreases |body|
  {
    if body == [] then Finished(api, path)
    else
      match Step(b, api, path, body[0])
      case Finished(a, p) => Run(b, a, p, body[1..])
      case other => other
  }

  /** Running two pieces of script one after the other is running their
      concatenation: a statement that only recorded an error never stops the
      statements after it. */
  lemma {:induction false} RunAppend<C, K, V>(b: Backend<C, K, V>, api: Api<C, K>, path: seq<string>,
                                              first: seq<Stmt<V>>, second: seq<Stmt<V>>)
    ensures Run(b, api, path, first + second) ==
      match Run(b, api, path, first)
      case Finished(a, p) => Run(b, a, p, second)
      case other => other
    decreases |first|
  {
    if first == [] {
      assert first + second == second;
    } else {
      assert (first + second)[0] == first[0];
      assert (first + second)[1..] == first[1..] + second;
      match Step(b, api, path, first[0])
      case Finished(a, p) => RunAppend(b, a, p, first[1..], second);
      case _ =>
    }
  }

  /** A raise ends the script: what ran before it has taken effect, nothing
      after it runs. */
  lemma RaiseStopsScript<C, K, V>(b: Backend<C, K, V>, api: Api<C, K>, path: seq<string>,
                                  before: seq<Stmt<V>>, message: string, traceback: string, after: seq<Stmt<V>>)
    requires Run(b, api, path, before).Finished?
    ensures var mid := Run(b, api, path, before);
      Run(b, api, path, before + [Raise(message, traceback)] + after)
        == Failed(mid.api, mid.path, message, traceback)
  {
    var mid := Run(b, api, path, before);
    RunAppend(b, api, path, before, [Raise(message, traceback)] + after);
    assert before + [Raise(message, traceback)] + after == before + ([Raise(message, traceback)] + after);
  }

  /** A call whose operation raised a configuration error records exactly its
      one descriptor, and the rest of the script runs from there. */
  lemma RecordedErrorContinues<C, K, V>(b: Backend<C, K, V>, api: Api<C, K>, path: seq<string>,
                                        st: Stmt<V>, rest: seq<Stmt<V>>)
    requires Recorded(b, api, st).Some?
    ensures Run(b, api, path, [st] + rest)
      == Run(b, api.(errors := api.errors + [Recorded(b, api, st).value]), path, rest)
  {
    assert ([st] + rest)[0] == st;
    assert ([st] + rest)[1..] == rest;
  }

  // ----- read_config_py -----

  /** What reading and compiling the script yields. */
  datatype ScriptFile<V> =
    | Unreadable(error: string)
    | Uncompilable(error: string)
    | BadSyntax(error: string, traceback: string)
    | Compiled(body: seq<Stmt<V>>)

  /** The surroundings: the configuration directory, whether `config.py`
      exists in it, and the import path before the call. */
  datatype Env = Env(configDir: string, defaultExists: bool, sysPath: seq<string>)

  /** How `read_config_py` ended, with the import path it leaves behind. */
  datatype Loaded<C, K> =
    | Loaded(api: Api<C, K>, sysPath: seq<string>)
    | FileErrors(raised: ConfigFileErrors, sysPath: seq<string>)
    | Interrupted(api: Api<C, K>, message: string, sysPath: seq<string>)

  const DEFAULT_NAME: string := "config.py"

  /** The import path with the configuration directory in front, unless it is already on it. */
  function WithConfigDir(path: seq<string>, dir: string): (r: seq<string>)
    ensures dir in r
    ensures forall d :: d in path ==> d in r
    ensures dir in path ==> r == path
    ensures dir !in path ==> |r| == |path| + 1 && r[0] == dir && r[1..] == path
  {
    if dir in path then path else [dir] + path
  }

  /** The script file that is read: the given one, or `config.py` in the configuration directory. */
  function ScriptPath(filename: Option<string>, env: Env): string {
    if filename.Some? then filename.value else PosixPath.Join(env.configDir, DEFAULT_NAME)
  }

  /** The single descriptor raised for a script that could not be read or compiled. */
  function FileError<V>(basename: string, file: ScriptFile<V>): (r: ErrorDesc)
    requires !file.Compiled?
    ensures file.Unreadable? ==> r.text == "Error while reading " + basename && r.traceback == None
    ensures file.Uncompilable? ==> r.text == "Error while compiling" && r.traceback == None
    ensures file.BadSyntax? ==> r.text == "Syntax Error" && r.traceback == Some(file.traceback)
    ensures r.exception == file.error
  {
    match file
    case Unreadable(e) => ErrorDesc("Error while reading " + basename, e, None)
    case Uncompilable(e) => ErrorDesc("Error while compiling", e, None)
    case BadSyntax(e, tb) => ErrorDesc("Syntax Error", e, Some(tb))
  }

  /** What follows the execution: an exception derived from `Exception` is
      recorded, then the import path is restored and the configuration
      finalized; an exit leaves both as they are, and the configuration keeps
      whatever the statements before it did. */
  function AfterExec<C, K, V>(b: Backend<C, K, V>, e: Exec<C, K>, oldPath: seq<string>): (r: Loaded<C, K>)
    ensures r.Interrupted? <==> e.Exited?
    ensures r.Interrupted? ==> r.sysPath == e.path && r.api == e.api && r.message == e.message
    ensures r.Loaded? ==> r.sysPath == oldPath && r.api.conf == b.updateMutables(e.api.conf) && r.api.keys == e.api.keys
    ensures r.Loaded? ==> r.api.loadAutoconfig == e.api.loadAutoconfig
    ensures e.Finished? ==> r.Loaded? && r.api.errors == e.api.errors
    ensures e.Failed? ==> r.Loaded? && r.api.errors == e.api.errors + [ErrorDesc("Unhandled exception", e.message, Some(e.traceback))]
  {
    match e
    case Finished(a, _) => Loaded(Finalize(b, a), oldPath)
    case Failed(a, _, msg, tb) =>
      Loaded(Finalize(b, a.(errors := a.errors + [ErrorDesc("Unhandled exception", msg, Some(tb))])), oldPath)
    case Exited(a, p, msg) => Interrupted(a, msg, p)
  }

  /** `read_config_py(filename)`. */
  function ReadConfigPy<C, K, V>(b: Backend<C, K, V>, conf: C, keys: K, filename: Option<string>,
                                 env: Env, file: ScriptFile<V>): (r: Loaded<C, K>)
    ensures filename.None? && !env.defaultExists ==> r == Loaded(New(conf, keys), env.sysPath)
    ensures r.FileErrors? <==>
      (filename.Some? || env.defaultExists) && !file.Compiled?
    ensures r.FileErrors? ==>
      && r.raised.basename == PosixPath.Basename(ScriptPath(filename, env))
      && r.raised.errors == [FileError(r.raised.basename, file)]
      && r.sysPath == WithConfigDir(env.sysPath, env.configDir)
    ensures (filename.Some? || env.defaultExists) && file.Compiled? ==>
      r == AfterExec(b, Run(b, New(conf, keys), WithConfigDir(env.sysPath, env.configDir), file.body), env.sysPath)
  {
    var api := New(conf, keys);
    if filename.None? && !env.defaultExists then
      Loaded(api, env.sysPath)
    else
      var sysPath := WithConfigDir(env.sysPath, env.configDir);
      var basename := PosixPath.Basename(ScriptPath(filename, env));
      if !file.Compiled? then
        FileErrors(ConfigFileErrors(basename, [FileError(basename, file)]), sysPath)
      else
        AfterExec(b, Run(b, api, sysPath, file.body), env.sysPath)
  }

  // ----- Properties of read_config_py -----

  /** Without a file name, errors are keyed by `config.py`. */
  lemma DefaultScriptBasename<C, K, V>(b: Backend<C, K, V>, conf: C, keys: K, env: Env, file: ScriptFile<V>)
    ensures var r := ReadConfigPy(b, conf, keys, None, env, file);
      r.FileErrors? ==> r.raised.basename == DEFAULT_NAME
  {
    assert ScriptPath(None, env) == PosixPath.Join(env.configDir, DEFAULT_NAME);
    PosixPath.BasenameOfJoin(env.configDir, DEFAULT_NAME);
  }

  /** A script that cannot be read or compiled is never executed: no API is
      returned, the one descriptor says why, and the configuration directory
      stays on the import path. */
  lemma FileErrorsLeavePathChanged<C, K, V>(b: Backend<C, K, V>, conf: C, keys: K, filename: Option<string>,
                                            env: Env, file: ScriptFile<V>)
    requires filename.Some? || env.defaultExists
    requires env.configDir !in env.sysPath
    requires !file.Compiled?
    ensures var r := ReadConfigPy(b, conf, keys, filename, env, file);
      && r.FileErrors?
      && r.sysPath != env.sysPath
      && r.sysPath == [env.configDir] + env.sysPath
  {
    var r := ReadConfigPy(b, conf, keys, filename, env, file);
    assert |r.sysPath| == |env.sysPath| + 1;
  }

  /** An exception escaping the script adds exactly one "Unhandled exception"
      descriptor after the ones recorded before it; the import path is
      restored and the configuration finalized. */
  lemma UnhandledExceptionRecorded<C, K, V>(b: Backend<C, K, V>, conf: C, keys: K, filename: Option<string>,
                                            env: Env, before: seq<Stmt<V>>, message: string, traceback: string,
                                            after: seq<Stmt<V>>)
    requires filename.Some? || env.defaultExists
    requires Run(b, New(conf, keys), WithConfigDir(env.sysPath, env.configDir), before).Finished?
    ensures var mid := Run(b, New(conf, keys), WithConfigDir(env.sysPath, env.configDir), before);
      var r := ReadConfigPy(b, conf, keys, filename, env, Compiled(before + [Raise(message, traceback)] + after));
      && r.Loaded?
      && r.sysPath == env.sysPath
      && r.api.conf == b.updateMutables(mid.api.conf)
      && r.api.keys == mid.api.keys
      && r.api.loadAutoconfig == mid.api.loadAutoconfig
      && r.api.errors == mid.api.errors + [ErrorDesc("Unhandled exception", message, Some(traceback))]
  {
    RaiseStopsScript(b, New(conf, keys), WithConfigDir(env.sysPath, env.configDir), before, message, traceback, after);
  }

  /** Unless the script exits the interpreter, `read_config_py` returns an
      API whose configuration is finalized, with the import path restored and
      at most one error per statement plus one for an unhandled exception. */
  lemma ScriptAlwaysReturns<C, K, V>(b: Backend<C, K, V>, conf: C, keys: K, filename: Option<string>,
                                     env: Env, body: seq<Stmt<V>>)
    requires filename.Some? || env.defaultExists
    requires forall i :: 0 <= i < |body| ==> !body[i].Exit?
    ensures var r := ReadConfigPy(b, conf, keys, filename, env, Compiled(body));
      var run := Run(b, New(conf, keys), WithConfigDir(env.sysPath, env.configDir), body);
      && r.Loaded?
      && r.sysPath == env.sysPath
      && r.api.conf == b.updateMutables(run.api.conf)
      && r.api.loadAutoconfig == run.api.loadAutoconfig
      && |r.api.errors| <= |body| + 1
  {
  }

  /** A script whose last statement is `config.load_autoconfig = False`
      hands that setting back to the caller. */
  lemma DisabledAutoconfigReturned<C, K, V>(b: Backend<C, K, V>, conf: C, keys: K, filename: Option<string>,
                                            env: Env, before: seq<Stmt<V>>)
    requires filename.Some? || env.defaultExists
    requires Run(b, New(conf, keys), WithConfigDir(env.sysPath, env.configDir), before).Finished?
    ensures var r := ReadConfigPy(b, conf, keys, filename, env, Compiled(before + [SetLoadAutoconfig(false)]));
      r.Loaded? && !r.api.loadAutoconfig
  {
    RunAppend(b, New(conf, keys), WithConfigDir(env.sysPath, env.configDir), before, [SetLoadAutoconfig(false)]);
  }
}

=== FILE: interpolation.dfy ===
/** configparser's basic interpolation, which every read of a value through a
    section goes through: `%%` stands for `%`, `%(name)s` for the value of
    option `name` of the same section (itself interpolated when it holds a
    `%`), and any other `%` is a syntax error. */
module Interpolation {
  import opened Wrappers

  type Section = map<string, string>

  /** How deeply references may nest before the read fails. */
  const MAX_INTERPOLATION_DEPTH: nat := 10

  const DEPTH_ERROR: string := "InterpolationDepthError"
  const SYNTAX_ERROR: string := "InterpolationSyntaxError"
  const MISSING_OPTION_ERROR: string := "InterpolationMissingOptionError"

  /** The index of the first `)` at or after `i`, or `|s|` when there is none. */
  function CloseParen(s: string, i: nat): (r: nat)
    requires i <= |s|
    ensures i <= r <= |s|
    ensures r < |s| ==> s[r] == ')'
    ensures forall k :: i <= k < r ==> s[k] != ')'
    decreases |s| - i
  {
    if i == |s| || s[i] == ')' then i else CloseParen(s, i + 1)
  }

  /** Matches `%(name)s` at the start of `s`: the name (at least one
      character, no `)`), and the index just past the reference. */
  function Reference(s: string): (r: Option<(string, nat)>)
    requires |s| >= 2 && s[0] == '%' && s[1] == '('
    ensures r.Some? ==>
      && 4 <= r.value.1 <= |s|
      && |r.value.0| >= 1
      && s[..r.value.1] == "%(" + r.value.0 + ")s"
      && ')' !in r.value.0
  {
    var j := CloseParen(s, 2);
    if j > 2 && j + 1 < |s| && s[j + 1] == 's' then
      var name := s[2..j];
      assert ')' !in name by {
        forall k | 0 <= k < |name| ensures name[k] != ')' { assert name[k] == s[2 + k]; }
      }
      assert s[..j + 2] == "%(" + name + ")s";
      Some((name, j + 2))
    else None
  }

  /** Interpolates `rest` at nesting level `depth`, giving the expanded text or
      the name of the error raised. */
  function Interpolate(sect: Section, rest: string, depth: nat): (r: Result<string, string>)
    ensures depth > MAX_INTERPOLATION_DEPTH ==> r == Failure(DEPTH_ERROR)
    ensures depth <= MAX_INTERPOLATION_DEPTH && '%' !in rest ==> r == Success(rest)
    decreases MAX_INTERPOLATION_DEPTH + 1 - depth, |rest|
  {
    if depth > MAX_INTERPOLATION_DEPTH then Failure(DEPTH_ERROR)
    else if rest == [] then Success([])
    else if rest[0] != '%' then
      match Interpolate(sect, rest[1..], depth)
      case Success(tail) =>
        assert '%' !in rest ==> tail == rest[1..];
        assert [rest[0]] + rest[1..] == rest;
        Success([rest[0]] + tail)
      case Failure(e) => Failure(e)
    else if |rest| >= 2 && rest[1] == '%' then
      match Interpolate(sect, rest[2..], depth)
      case Success(tail) => Success("%" + tail)
      case Failure(e) => Failure(e)
    else if |rest| >= 2 && rest[1] == '(' then
      match Reference(rest)
      case None => Failure(SYNTAX_ERROR)
      case Some((name, end)) =>
        if name !in sect then Failure(MISSING_OPTION_ERROR)
        else
          var v := sect[name];
          var inner := if '%' in v then Interpolate(sect, v, depth + 1) else Success(v);
          match inner
          case Failure(e) => Failure(e)
          case Success(expanded) =>
            match Interpolate(sect, rest[end..], depth)
            case Success(tail) => Success(expanded + tail)
            case Failure(e) => Failure(e)
    else Failure(SYNTAX_ERROR)
  }

  /** Reading an option's value: the interpolation of its raw text, starting at level 1. */
  function Read(sect: Section, key: string): (r: Result<string, string>)
    requires key in sect
    ensures '%' !in sect[key] ==> r == Success(sect[key])
  {
    Interpolate(sect, sect[key], 1)
  }

  /** A lone `%` at the end of a value is a syntax error, at any nesting level
      below the limit. */
  lemma {:induction false} TrailingPercentFails(sect: Section, text: string, depth: nat)
    requires depth <= MAX_INTERPOLATION_DEPTH && '%' !in text
    ensures Interpolate(sect, text + "%", depth) == Failure(SYNTAX_ERROR)
    decreases |text|
  {
    if text != [] {
      assert (text + "%")[1..] == text[1..] + "%";
      TrailingPercentFails(sect, text[1..], depth);
    }
  }

  /** A well-formed reference `%(name)s` at the start of a text is matched
      with exactly that name, and the text after it starts at `|name| + 4`. */
  lemma ReferenceMatches(name: string, tail: string)
    requires |name| >= 1 && ')' !in name
    ensures Reference("%(" + name + ")s" + tail) == Some((name, |name| + 4))
  {
    var s := "%(" + name + ")s" + tail;
    assert s[2 + |name|] == ')';
    forall k | 2 <= k < 2 + |name| ensures s[k] != ')' { assert s[k] == name[k - 2]; }
    assert CloseParen(s, 2) == 2 + |name|;
    assert s[2..2 + |name|] == name;
  }

  /** A reference to an option the section lacks fails. */
  lemma MissingReferenceFails(sect: Section, name: string, tail: string)
    requires |name| >= 1 && ')' !in name && name !in sect
    ensures Interpolate(sect, "%(" + name + ")s" + tail, 1) == Failure(MISSING_OPTION_ERROR)
  {
    ReferenceMatches(name, tail);
  }

  /** A reference to a present option whose value holds no `%` reads as
      that value, and the text after it is interpolated at the same level. */
  lemma ReferenceUnfolds(sect: Section, name: string, tail: string, depth: nat)
    requires depth <= MAX_INTERPOLATION_DEPTH
    requires |name| >= 1 && ')' !in name && name in sect && '%' !in sect[name]
    ensures Interpolate(sect, "%(" + name + ")s" + tail, depth) ==
      match Interpolate(sect, tail, depth)
      case Success(t) => Success(sect[name] + t)
      case Failure(e) => Failure(e)
  {
    ReferenceMatches(name, tail);
    assert ("%(" + name + ")s" + tail)[|name| + 4..] == tail;
  }

  /** A reference to a present option whose value holds no `%`, followed by
      text without `%`, reads as that value followed by the text. */
  lemma ReferenceExpands(sect: Section, name: string, tail: string)
    requires |name| >= 1 && ')' !in name && name in sect
    requires '%' !in sect[name] && '%' !in tail
    ensures Interpolate(sect, "%(" + name + ")s" + tail, 1) == Success(sect[name] + tail)
  {
    ReferenceUnfolds(sect, name, tail, 1);
  }

  /** The text after a reference is interpolated too: a lone `%` at its end
      is a syntax error even when the reference itself reads fine. */
  lemma ReferenceThenPercentFails(sect: Section, name: string, text: string)
    requires |name| >= 1 && ')' !in name && name in sect
    requires '%' !in sect[name] && '%' !in text
    ensures Interpolate(sect, "%(" + name + ")s" + text + "%", 1) == Failure(SYNTAX_ERROR)
  {
    assert "%(" + name + ")s" + text + "%" == "%(" + name + ")s" + (text + "%");
    ReferenceUnfolds(sect, name, text + "%", 1);
    TrailingPercentFails(sect, text, 1);
  }

  /** The referenced value is itself interpolated, one level deeper: a
      reference to a value ending in a lone `%` fails with a syntax error. */
  lemma NestedPercentFails(sect: Section, name: string, text: string, tail: string)
    requires |name| >= 1 && ')' !in name && name in sect
    requires sect[name] == text + "%" && '%' !in text
    ensures Interpolate(sect, "%(" + name + ")s" + tail, 1) == Failure(SYNTAX_ERROR)
  {
    ReferenceMatches(name, tail);
    assert sect[name][|text|] == '%';
    TrailingPercentFails(sect, text, 2);
  }

  /** An option that refers to itself never finishes expanding: whatever the
      level it is read at, the nesting limit is reached and the read fails. */
  lemma {:induction false} SelfReferenceFails(sect: Section, name: string, depth: nat)
    requires |name| >= 1 && ')' !in name && name in sect
    requires sect[name] == "%(" + name + ")s"
    ensures Interpolate(sect, sect[name], depth) == Failure(DEPTH_ERROR)
    decreases MAX_INTERPOLATION_DEPTH + 1 - depth
  {
    if depth <= MAX_INTERPOLATION_DEPTH {
      ReferenceMatches(name, []);
      assert sect[name] == "%(" + name + ")s" + [];
      assert sect[name][0] == '%';
      SelfReferenceFails(sect, name, depth + 1);
    }
  }

  /** `%%` reads as a single `%`. */
  lemma EscapedPercent(sect: Section, text: string)
    requires '%' !in text
    ensures Interpolate(sect, "%%" + text, 1) == Success("%" + text)
  {
    assert ("%%" + text)[2..] == text;
  }
}

=== FILE: posix_path.dfy ===
/** The two `os.path` functions the script loader relies on, with POSIX
    semantics (the separator is `/`). */
module PosixPath {

  const SEP: char := '/'

  predicate IsAbsolute(p: string) {
    |p| > 0 && p[0] == SEP
  }

  /** `os.path.join(a, b)`: an absolute `b` replaces `a`; otherwise `b` is
      appended, with a separator unless `a` is empty or already ends in one. */
  function Join(a: string, b: string): (r: string)
    ensures |b| <= |r| && r[|r| - |b|..] == b
    ensures !IsAbsolute(b) ==> |a| + |b| <= |r| && r[..|a|] == a
    ensures !IsAbsolute(b) && a != [] ==> r[|r| - |b| - 1] == SEP
    ensures IsAbsolute(b) ==> r == b
    ensures !IsAbsolute(b) && (a == [] || a[|a| - 1] == SEP) ==> |r| == |a| + |b|
    ensures !IsAbsolute(b) && a != [] && a[|a| - 1] != SEP ==> |r| == |a| + 1 + |b|
  {
    if IsAbsolute(b) then b
    else if a == [] || a[|a| - 1] == SEP then a + b
    else a + [SEP] + b
  }

  /** `os.path.basename(p)`: everything after the last separator. */
  function Basename(p: string): (r: string)
    ensures SEP !in r
    ensures |r| <= |p| && p[|p| - |r|..] == r
    ensures |r| < |p| ==> p[|p| - |r| - 1] == SEP
    decreases |p|
  {
    if p == [] || p[|p| - 1] == SEP then []
    else
      var init := p[..|p| - 1];
      var rest := Basename(init);
      assert p == init + [p[|p| - 1]];
      assert p[|p| - |rest| - 1..] == init[|init| - |rest|..] + [p[|p| - 1]];
      rest + [p[|p| - 1]]
  }

  /** A name without separators appended after a directory boundary is its own base name. */
  lemma {:induction false} BasenameAfterSeparator(dir: string, name: string)
    requires dir == [] || dir[|dir| - 1] == SEP
    requires SEP !in name
    ensures Basename(dir + name) == name
    decreases |name|
  {
    if name == [] {
      assert dir + name == dir;
    } else {
      var init := name[..|name| - 1];
      var last := name[|name| - 1];
      assert name == init + [last];
      assert dir + name == (dir + init) + [last];
      var p := dir + name;
      assert p[|p| - 1] == last && last != SEP;
      assert p[..|p| - 1] == dir + init;
      BasenameAfterSeparator(dir, init);
      assert Basename(p) == Basename(dir + init) + [last];
    }
  }

  /** The base name of a file name without separators, joined to any directory, is that name. */
  lemma BasenameOfJoin(dir: string, name: string)
    requires SEP !in name
    ensures Basename(Join(dir, name)) == name
  {
    if dir == [] || dir[|dir| - 1] == SEP {
      BasenameAfterSeparator(dir, name);
    } else {
      assert dir + [SEP] + name == (dir + [SEP]) + name;
      BasenameAfterSeparator(dir + [SEP], name);
    }
  }
}

=== FILE: state_config.dfy ===
/** The `state` file: schema-free application bookkeeping kept as named
    sections of string keys and values. */
module StateConfig {
  import opened Wrappers
  import Interpolation

  type Section = Interpolation.Section
  type Sections = map<string, Section>

  /** The named section, or an empty one when it is missing. */
  function SectionOf(secs: Sections, name: string): Section {
    if name in secs then secs[name] else map[]
  }

  /** Sections that exist after every load, whatever the file held. */
  const REQUIRED_SECTIONS: seq<string> := ["general", "geometry"]

  /** Keys of earlier versions that are dropped from `general` on every load. */
  const DELETED_KEYS: seq<string> := ["fooled", "backend-warning-shown"]

  /** What reading the state file yields. A missing or unreadable file is
      skipped by the parser; a file it cannot parse raises out of the load. */
  datatype StateFile =
    | Absent
    | Unreadable(error: string)
    | Malformed(error: string)
    | Parsed(sections: Sections)

  /** `add_section`, with the duplicate-section error swallowed: an existing
      section and its contents stay as they are. */
  function AddSection(secs: Sections, name: string): (r: Sections)
    ensures r.Keys == secs.Keys + {name}
    ensures forall s :: s in secs ==> r[s] == secs[s]
    ensures name !in secs ==> r[name] == map[]
  {
    if name in secs then secs else secs[name := map[]]
  }

  /** Adds each of `names` in turn. */
  function AddSections(secs: Sections, names: seq<string>): (r: Sections)
    ensures r.Keys == secs.Keys + set n | n in names
    ensures forall s :: s in secs ==> r[s] == secs[s]
    ensures forall s :: s in r && s !in secs ==> r[s] == map[]
    decreases |names|
  {
    if names == [] then secs
    else
      var r := AddSections(AddSection(secs, names[0]), names[1..]);
      assert (set n | n in names) == {names[0]} + set n | n in names[1..];
      r
  }

  /** The values of `keys` that are present in `sect` are free of `%`, so
      reading them cannot fail. */
  predicate PlainValues(sect: Section, keys: seq<string>) {
    forall k :: k in keys && k in sect ==> '%' !in sect[k]
  }

  /** `section.pop(key, None)`: an absent key is no error; a present one is
      first read, which interpolates its value and can raise. */
  function Pop(sect: Section, key: string): (r: Result<Section, string>)
    ensures r.Success? ==> r.value == sect - {key}
    ensures key !in sect ==> r.Success?
    ensures key in sect ==> (r.Failure? <==> Interpolation.Read(sect, key).Failure?)
  {
    if key !in sect then Success(sect)
    else
      match Interpolation.Read(sect, key)
      case Failure(e) => Failure(e)
      case Success(_) => Success(sect - {key})
  }

  /** `section.pop(key, None)` for each of `keys` in turn; the first failing
      read ends the loop. */
  function PopKeys(sect: Section, keys: seq<string>): (r: Result<Section, string>)
    ensures r.Success? ==> r.value.Keys == sect.Keys - set k | k in keys
    ensures r.Success? ==> forall k :: k in r.value ==> r.value[k] == sect[k]
    ensures PlainValues(sect, keys) ==> r.Success?
    ensures r.Failure? ==> exists k :: k in keys && k in sect && '%' in sect[k]
    decreases |keys|
  {
    if keys == [] then Success(sect)
    else
      match Pop(sect, keys[0])
      case Failure(e) => Failure(e)
      case Success(rest) =>
        assert (set k | k in keys) == {keys[0]} + set k | k in keys[1..];
        assert PlainValues(sect, keys) ==> PlainValues(rest, keys[1..]);
        PopKeys(rest, keys[1..])
  }

  /** The reconciliation `StateConfig.__init__` applies to whatever was parsed:
      make sure the required sections exist, then purge the deleted keys from
      `general`. Reading a deleted key whose value does not interpolate raises. */
  function Reconcile(parsed: Sections): (r: Result<Sections, string>)
    ensures PlainValues(SectionOf(parsed, "general"), DELETED_KEYS) ==> r.Success?
    ensures r.Failure? ==>
      exists k :: k in DELETED_KEYS && k in SectionOf(parsed, "general") && '%' in SectionOf(parsed, "general")[k]
    ensures r.Success? ==> r.value.Keys == parsed.Keys + {"general", "geometry"}
    ensures r.Success? ==> forall s :: s in parsed && s != "general" ==> r.value[s] == parsed[s]
    ensures r.Success? && "geometry" !in parsed ==> r.value["geometry"] == map[]
    ensures r.Success? ==>
      forall k :: k in r.value["general"] <==> k in SectionOf(parsed, "general") && k !in DELETED_KEYS
    ensures r.Success? ==>
      forall k :: k in r.value["general"] ==> r.value["general"][k] == SectionOf(parsed, "general")[k]
  {
    var withSections := AddSections(parsed, REQUIRED_SECTIONS);
    assert (set n | n in REQUIRED_SECTIONS) == {"general", "geometry"};
    assert withSections["general"] == SectionOf(parsed, "general");
    match PopKeys(withSections["general"], DELETED_KEYS)
    case Failure(e) => Failure(e)
    case Success(general) => Success(withSections["general" := general])
  }

  /** With nothing parsed, both required sections exist and are empty. */
  lemma ReconcileEmpty()
    ensures Reconcile(map[]) == Success(map["general" := map[], "geometry" := map[]])
  {
    var r := Reconcile(map[]);
    assert r.Success?;
    var expected: Sections := map["general" := map[], "geometry" := map[]];
    assert r.value.Keys == expected.Keys;
    assert r.value["general"].Keys == {};
    assert r.value["general"] == map[];
    assert r.value["geometry"] == map[];
    assert r.value == expected;
  }

  /** A deleted key whose value ends in a lone `%` makes the load raise. */
  lemma ReconcilePercentFails()
    ensures Reconcile(map["general" := map["fooled" := "50%"]]).Failure?
  {
    var general: Section := map["fooled" := "50%"];
    Interpolation.TrailingPercentFails(general, "50", 1);
    assert "50" + "%" == "50%";
    assert Pop(general, "fooled").Failure?;
    assert AddSections(map["general" := general], REQUIRED_SECTIONS)["general"] == general;
  }

  /** A deleted key that refers to itself makes the load raise: its
      expansion nests until it passes the limit. */
  lemma ReconcileSelfReferenceFails()
    ensures Reconcile(map["general" := map["fooled" := "%(fooled)s"]]).Failure?
  {
    var general: Section := map["fooled" := "%(fooled)s"];
    assert "%(" + "fooled" + ")s" == "%(fooled)s";
    Interpolation.SelfReferenceFails(general, "fooled", 1);
    assert Pop(general, "fooled").Failure?;
    assert AddSections(map["general" := general], REQUIRED_SECTIONS)["general"] == general;
  }

  /** `StateConfig()`: read the file, then reconcile. A missing or unreadable
      file behaves like an empty one; a parse failure, or a deleted key whose
      value does not interpolate, raises. */
  function Load(file: StateFile): (r: Result<Sections, string>)
    ensures file.Malformed? ==> r.Failure?
    ensures r.Failure? ==> file.Malformed? || file.Parsed?
    ensures r.Success? ==> "general" in r.value && "geometry" in r.value
    ensures r.Success? ==> forall k :: k in DELETED_KEYS ==> k !in r.value["general"]
    ensures (file.Absent? || file.Unreadable?) ==>
      r == Success(map["general" := map[], "geometry" := map[]])
    ensures file.Parsed? ==> r == Reconcile(file.sections)
  {
    match file
    case Absent => ReconcileEmpty(); Reconcile(map[])
    case Unreadable(_) => ReconcileEmpty(); Reconcile(map[])
    case Malformed(e) => Failure(e)
    case Parsed(secs) => Reconcile(secs)
  }

  /** Module `init()`: load the state, then record the running version in
      `general`; nothing else changes. Storing a value through the section
      rejects a stray `%` in it; the model takes `version` to be the
      program's version string, which never holds one, so storing it cannot
      fail. */
  function Init(file: StateFile, version: string): (r: Result<Sections, string>)
    ensures r.Failure? <==> Load(file).Failure?
    ensures r.Success? ==> "geometry" in r.value && "general" in r.value
    ensures r.Success? ==> "version" in r.value["general"] && r.value["general"]["version"] == version
    ensures r.Success? ==> r.value.Keys == Load(file).value.Keys
    ensures r.Success? ==> forall s :: s in r.value && s != "general" ==> r.value[s] == Load(file).value[s]
    ensures r.Success? ==> r.value["general"].Keys == Load(file).value["general"].Keys + {"version"}
    ensures r.Success? ==>
      forall k :: k in r.value["general"] && k != "version" ==> r.value["general"][k] == Load(file).value["general"][k]
  {
    match Load(file)
    case Failure(e) => Failure(e)
    case Success(secs) => Success(secs["general" := secs["general"]["version" := version]])
  }

  // ----- An independent statement of the reconciliation, and its properties -----

  /** Reference reconciliation written as one comprehension. */
  function ReferenceReconcile(parsed: Sections): Sections {
    map s | s in parsed.Keys + {"general", "geometry"} ::
      if s == "general" then SectionOf(parsed, s) - {"fooled", "backend-warning-shown"}
      else SectionOf(parsed, s)
  }

  /** The `general` section of a successful reconciliation is the parsed one minus the deleted keys. */
  lemma ReconcileGeneral(parsed: Sections)
    requires Reconcile(parsed).Success?
    ensures Reconcile(parsed).value["general"] == SectionOf(parsed, "general") - {"fooled", "backend-warning-shown"}
  {
    var general := Reconcile(parsed).value["general"];
    assert general.Keys == SectionOf(parsed, "general").Keys - {"fooled", "backend-warning-shown"};
  }

  /** Whenever the step-by-step reconciliation succeeds, it agrees with the comprehension. */
  lemma ReconcileIsReference(parsed: Sections)
    ensures Reconcile(parsed).Success? ==> Reconcile(parsed).value == ReferenceReconcile(parsed)
  {
    if Reconcile(parsed).Success? {
      var r := Reconcile(parsed).value;
      var ref := ReferenceReconcile(parsed);
      assert r.Keys == ref.Keys;
      ReconcileGeneral(parsed);
      forall s | s in r
        ensures r[s] == ref[s]
      {
        if s != "general" {
          assert ref[s] == SectionOf(parsed, s);
        }
      }
    }
  }

  /** Loading a state that is already reconciled succeeds and changes nothing. */
  lemma ReconcileIdempotent(parsed: Sections)
    ensures Reconcile(parsed).Success? ==> Reconcile(Reconcile(parsed).value) == Reconcile(parsed)
  {
    if Reconcile(parsed).Success? {
      var once := Reconcile(parsed).value;
      assert SectionOf(once, "general") == once["general"];
      assert PlainValues(once["general"], DELETED_KEYS);
      var twice := Reconcile(once).value;
      assert twice.Keys == once.Keys;
      assert twice["general"].Keys == once["general"].Keys;
      assert twice["general"] == once["general"];
      forall s | s in twice ensures twice[s] == once[s] {
      }
      assert twice == once;
    }
  }
}

=== FILE: wrappers.dfy ===
/** Option and Result datatypes shared by the configuration modules. */
module Wrappers {

  /** A value that may be absent: Python's `None` versus a present value. */
  datatype Option<+T> = None | Some(value: T)

  /** A computation that either produced a value or raised an error. */
  datatype Result<+T, +E> = Success(value: T) | Failure(error: E)
}

=== FILE: yaml_config.dfy ===
/** `autoconfig.yml`: option values saved by the application itself, held in
    memory as a dictionary with a dirty flag. */
module YamlConfig {
  import opened Wrappers
  import opened ConfigExc

  /** A parsed YAML value. Mapping keys are YAML values too, so a document
      may hold keys that are not strings. */
  datatype Yaml =
    | YNull
    | YBool(b: bool)
    | YInt(i: int)
    | YStr(s: string)
    | YSeq(items: seq<Yaml>)
    | YMap(entries: map<Yaml, Yaml>)

  /** The format version written into every saved document. */
  const VERSION: int := 1

  /** The key used for every error this file raises. */
  const FILENAME: string := "autoconfig.yml"

  /** The comment block written before the document. */
  const HEADER: string :=
    "# DO NOT edit this file by hand, qutebrowser will overwrite it.\n"
    + "# Instead, create a config.py - see :help for details.\n\n"

  /** `_dirty`: `None` on a fresh store, `False` after a load, `True` after a set.
      Only `True` is truthy. */
  datatype DirtyFlag = Unset | Clean | Dirty

  datatype Store = Store(values: map<string, Yaml>, dirty: DirtyFlag)

  /** A fresh store: no values and a dirty flag of `None`. */
  function New(): (r: Store)
    ensures r.values == map[]
    ensures r.dirty != Dirty
  {
    Store(map[], Unset)
  }

  /** `store[name]`; a missing name (a `KeyError`) gives `None`. */
  function Get(s: Store, name: string): (r: Option<Yaml>)
    ensures r.Some? <==> name in s.values
    ensures r.Some? ==> r.value == s.values[name]
  {
    if name in s.values then Some(s.values[name]) else None
  }

  /** `name in store`. */
  predicate Contains(s: Store, name: string): (r: bool)
    ensures r <==> Get(s, name).Some?
  {
    name in s.values
  }

  /** `store[name] = value`: always marks the store dirty. */
  function Set(s: Store, name: string, value: Yaml): (r: Store)
    ensures r.dirty == Dirty
    ensures Get(r, name) == Some(value) && Contains(r, name)
    ensures r.values.Keys == s.values.Keys + {name}
    ensures forall n :: n in s.values && n != name ==> r.values[n] == s.values[n]
  {
    Store(s.values[name := value], Dirty)
  }

  /** Iterating the store: its `(name, value)` pairs. */
  function Items(s: Store): (r: set<(string, Yaml)>)
    ensures forall n, v :: (n, v) in r <==> Get(s, n) == Some(v)
  {
    set n | n in s.values :: (n, s.values[n])
  }

  /** The option values as a YAML mapping with string keys. */
  function ToMapping(values: map<string, Yaml>): (r: map<Yaml, Yaml>)
    ensures forall k :: k in r <==> k.YStr? && k.s in values
    ensures forall n :: n in values ==> r[YStr(n)] == values[n]
  {
    map n | n in values :: YStr(n) := values[n]
  }

  /** What a save writes: the header comment, then the document. */
  datatype SaveOutput = SaveOutput(header: string, doc: Yaml)

  /** The document a save writes for the given values. */
  function Document(values: map<string, Yaml>): Yaml {
    YMap(map[YStr("config_version") := YInt(VERSION), YStr("global") := YMap(ToMapping(values))])
  }

  /** `_save`: writes nothing unless the store is dirty. */
  function Save(s: Store): (r: Option<SaveOutput>)
    ensures r.Some? <==> s.dirty == Dirty
    ensures r.Some? ==> r.value.header == HEADER
    ensures r.Some? ==>
      && r.value.doc.YMap?
      && r.value.doc.entries.Keys == {YStr("config_version"), YStr("global")}
      && r.value.doc.entries[YStr("config_version")] == YInt(VERSION)
      && r.value.doc.entries[YStr("global")] == YMap(ToMapping(s.values))
  {
    if s.dirty == Dirty then Some(SaveOutput(HEADER, Document(s.values))) else None
  }

  /** What opening and parsing the file yields. */
  datatype Source =
    | NotFound
    | ReadFailed(error: string)
    | ParseFailed(error: string)
    | Parsed(doc: Yaml)

  /** The store after a load, and the aggregate error it raised, if any. */
  datatype LoadResult = LoadResult(store: Store, raised: Option<ConfigFileErrors>)

  /** Deleting every name of the `global` mapping that is not a known option. */
  function Prune(global: map<Yaml, Yaml>, known: set<string>): (r: map<string, Yaml>)
    ensures r.Keys <= known
    ensures forall n :: n in r <==> n in known && YStr(n) in global
    ensures forall n :: n in r ==> r[n] == global[YStr(n)]
  {
    map n | n in known && YStr(n) in global :: global[YStr(n)]
  }

  function Fail(s: Store, action: string, message: string): LoadResult {
    LoadResult(s, Some(ConfigFileErrors(FILENAME, [ErrorDesc(action, message, None)])))
  }

  /** The shape checks `load` applies to a parsed document, then the pruning. */
  function LoadParsed(s: Store, doc: Yaml, known: set<string>): (r: LoadResult)
    ensures r.raised.Some? ==> r.store == s
    ensures r.raised.Some? ==> r.raised.value.basename == FILENAME && |r.raised.value.errors| == 1
    ensures r.raised.None? ==> r.store.dirty == Clean && r.store.values.Keys <= known
  {
    if !doc.YMap? then
      Fail(s, "While loading data", "Toplevel object is not a dict")
    else if YStr("global") !in doc.entries then
      Fail(s, "While loading data", "Toplevel object does not contain 'global' key")
    else
      var global := doc.entries[YStr("global")];
      if !global.YMap? then
        Fail(s, "While loading data", "'global' object is not a dict")
      else
        LoadResult(Store(Prune(global.entries, known), Clean), None)
  }

  /** `load`, given what reading the file produced and the names of the known options. */
  function Load(s: Store, src: Source, known: set<string>): (r: LoadResult)
    ensures r.raised.Some? ==> r.store == s
    ensures r.raised.Some? ==> r.raised.value.basename == FILENAME && |r.raised.value.errors| == 1
    ensures src.NotFound? ==> r == LoadResult(s, None)
    ensures r.raised.None? && !src.NotFound? ==> r.store.dirty == Clean && r.store.values.Keys <= known
    ensures src.ReadFailed? ==>
      r == LoadResult(s, Some(ConfigFileErrors(FILENAME, [ErrorDesc("While reading", src.error, None)])))
    ensures src.ParseFailed? ==>
      r == LoadResult(s, Some(ConfigFileErrors(FILENAME, [ErrorDesc("While parsing", src.error, None)])))
    ensures src.Parsed? && r.raised.Some? ==>
      r.raised.value.errors[0].text == "While loading data" && r.raised.value.errors[0].traceback == None
  {
    match src
    case NotFound => LoadResult(s, None)
    case ReadFailed(e) => Fail(s, "While reading", e)
    case ParseFailed(e) => Fail(s, "While parsing", e)
    case Parsed(doc) => LoadParsed(s, doc, known)
  }

  // ----- Properties of loading and saving -----

  /** The message of the single error a failed load raised. */
  function LoadError(r: LoadResult): string
    requires r.raised.Some? && |r.raised.value.errors| == 1
  {
    r.raised.value.errors[0].exception
  }

  /** A parsed document is rejected exactly when it is not a mapping, has no
      `global` key, or its `global` is not a mapping, each with its own message;
      otherwise it loads. */
  lemma LoadShapeErrors(s: Store, doc: Yaml, known: set<string>)
    ensures var r := Load(s, Parsed(doc), known);
      && (!doc.YMap? ==> r.raised.Some? && LoadError(r) == "Toplevel object is not a dict")
      && (doc.YMap? && YStr("global") !in doc.entries ==>
            r.raised.Some? && LoadError(r) == "Toplevel object does not contain 'global' key")
      && (doc.YMap? && YStr("global") in doc.entries && !doc.entries[YStr("global")].YMap? ==>
            r.raised.Some? && LoadError(r) == "'global' object is not a dict")
      && (r.raised.None? <==>
            doc.YMap? && YStr("global") in doc.entries && doc.entries[YStr("global")].YMap?)
  {
  }

  /** A successful load replaces the values by exactly the known options of
      `global`, with their values unchanged, and leaves the store clean:
      earlier values that `global` lacks are gone. */
  lemma LoadKeepsKnown(s: Store, global: map<Yaml, Yaml>, rest: map<Yaml, Yaml>, known: set<string>)
    requires YStr("global") !in rest
    ensures var r := Load(s, Parsed(YMap(rest[YStr("global") := YMap(global)])), known);
      && r.raised.None?
      && r.store.dirty == Clean
      && (forall n :: n in known && YStr(n) in global ==> Get(r.store, n) == Some(global[YStr(n)]))
      && (forall n :: n !in known ==> Get(r.store, n) == None)
      && (forall n :: YStr(n) !in global ==> Get(r.store, n) == None)
  {
  }

  /** After a successful load a save writes nothing. */
  lemma SaveAfterLoadWritesNothing(s: Store, src: Source, known: set<string>)
    requires !src.NotFound?
    ensures var r := Load(s, src, known);
      r.raised.None? ==> Save(r.store) == None
  {
  }

  /** A fresh store writes nothing. */
  lemma SaveFreshWritesNothing()
    ensures Save(New()) == None
  {
  }

  /** Pruning the mapping written for known values removes nothing. */
  lemma PruneToMapping(values: map<string, Yaml>, known: set<string>)
    requires values.Keys <= known
    ensures Prune(ToMapping(values), known) == values
  {
    var pruned := Prune(ToMapping(values), known);
    assert pruned.Keys == values.Keys;
  }

  /** A saved document always has the shape a load accepts. */
  lemma LoadDocument(other: Store, values: map<string, Yaml>, known: set<string>)
    ensures Load(other, Parsed(Document(values)), known)
      == LoadResult(Store(Prune(ToMapping(values), known), Clean), None)
  {
    var doc := Document(values);
    assert doc.YMap? && YStr("global") in doc.entries;
    var global := doc.entries[YStr("global")];
    assert global == YMap(ToMapping(values));
    assert LoadParsed(other, doc, known) == LoadResult(Store(Prune(global.entries, known), Clean), None);
  }

  /** Loading what a dirty store saved gives back its values, as long as they
      are all known options; the reloaded store is clean. */
  lemma SaveLoadRoundTrip(s: Store, other: Store, known: set<string>)
    requires s.dirty == Dirty
    requires s.values.Keys <= known
    ensures Save(s).Some?
    ensures Load(other, Parsed(Save(s).value.doc), known) == LoadResult(Store(s.values, Clean), None)
  {
    assert Save(s).value.doc == Document(s.values);
    LoadDocument(other, s.values, known);
    PruneToMapping(s.values, known);
  }

  /** An option that is not known is gone after a successful load, so the
      next save cannot write it back. */
  lemma UnknownNeverSaved(s: Store, doc: Yaml, known: set<string>, name: string)
    requires name !in known
    ensures var r := Load(s, Parsed(doc), known);
      r.raised.None? ==> !Contains(r.store, name) && YStr(name) !in ToMapping(r.store.values)
  {
  }
}
